=== FILE: README.md ===
# Resume site behaviour kernel, in Dafny

`app.js` of the resume site is mostly DOM glue. Four pieces of it carry
logic that can be stated precisely, and they are what this project models
and proves things about:

- **The metric count-up** (`animateMetric`, `easeOutQuart`).
  - A metric element's text is split into a *magnitude*: its digits and
    points, read by `parseFloat`.
  - The rest is the *suffix*: the other characters, with leading
    whitespace removed.
  - An unparseable magnitude leaves the element alone.
  - Otherwise each animation frame shows `target * easeOutQuart(progress)`,
    formatted by the first of four rules (`%`, `K`, a point in the text,
    plain), until the progress reaches 1.
- **The contact rows** (`initContactInteractions`).
  - A row's text selects, in priority order, a `mailto:`, `https://` or
    `tel:` link, or no handler.
  - A click opens the link and shows a notice. When opening fails, the
    email and phone rows show their text instead.
- **The one-shot observers.** These are the section, metric and KPI
  `IntersectionObserver` callbacks. Every intersecting entry runs its
  target's effect and unobserves the target.
- **The stagger schedule.** A revealed section shows its title after
  200 ms and child `i` after `100 + 100 * i` ms. A KPI highlight pulses
  after 500 ms.

Modules:

- `Options`: the `Option` type.
- `Priority`: first-match dispatch over an ordered rule list. It is the
  reference definition for both the metric formats and the contact rows.
- `Text`: the character classes `\d`, `[\d.]` and `\s`, regular-expression
  filtering, `^\s+` trimming, `includes`, and decimal numerals.
- `Numbers`: `parseFloat`, `Math.round`, integer printing and
  `toFixed(1)` over exact reals.
- `Easing`: the progress clamp and the quartic ease-out.
- `Metric`: parsing, formatting, frames and the final text.
- `CountUp`: the frame loop and `animateMetric`.
- `Contact`: the contact rows.
- `Reveal`: the observer state machine.
- `Stagger`: the timers.

The count-up does not always end on the text it started from. It ends on
the formatted target, which differs from the original text in several
ways, among others:

- Characters in front of the number move behind it when the first of
  them is not whitespace: `Metric.MovesPrefixBehindNumber`.
- Whitespace in front of the number is dropped. So is the whitespace
  between the number and the unit, because after the digits are removed
  the two runs form one leading run that is trimmed. " 7 M" ends as "7M":
  `Metric.DropsLeadingSpace`.
- In a text of the shape `<n><spaces><unit>`, the whitespace between the
  number and the unit is dropped: `Metric.DropsSpaceBeforeUnit`. That
  whitespace stays only when some character that is not whitespace comes
  before the number.
- A bare `K` becomes `K+`: `Metric.ThousandsGainPlus`.
- Under the `%` and `K` rules everything else in the unit is dropped, so
  "50% off" ends as "50%": `Metric.PercentDropsRestOfUnit`.
- A decimal with more than one place is re-rounded to one place:
  `Metric.RoundsTrailingZero`.
- The digits and points of separate numbers merge into one magnitude, so
  "1-2 years" counts up to 12: `Metric.MergesSeparateNumbers`.
- A point anywhere in the text selects the one-decimal rule, because
  app.js:221 tests the whole text rather than the magnitude. So "Top 5."
  ends as "5.0Top ".

Texts of the shapes below do end as they began:

- `<n>%`: `Metric.RestoresPercent`
- `<n>K+`: `Metric.RestoresThousands`
- `<w>.<d><unit>`, where the unit has no digit, point, `%` or `K` and does
  not start with whitespace: `Metric.RestoresOneDecimal`
- `<n><unit>`, under the same conditions on the unit:
  `Metric.RestoresInteger`. A unit with a point does not qualify: "5yrs."
  ends as "5.0yrs".

For instance, "85%", "10K+" and "4.8" end as they began: `Metric.RestoresPercent`,
`Metric.RestoresThousands`, and `Metric.RestoresOneDecimal` with 48 tenths.

Also, every completed display is a fixed point of the animator:
`Metric.FinalTextIdempotent`.

## Model

| member | source | states |
|---|---|---|
| Text.Filter | app.js:202-203 | a regular-expression class removal keeps only characters of the kept class and never lengthens the text |
| Text.FilterCounts | app.js:202-203 | filtering keeps every occurrence of every kept character and drops every other character entirely |
| Text.FilterSplitUnique | app.js:202-203 | the two complementary filters are the only order-preserving split of the text into kept and dropped characters |
| Text.TrimStart | app.js:203 | `replace(/^\s+/, '')` removes exactly a leading run of whitespace and leaves a result that does not start with whitespace |
| Text.TrimStartOfSpaces | app.js:203 | trimming whitespace in front of a string that does not start with whitespace yields that string |
| Text.Contains | app.js:217-221 | `includes` holds exactly when the pattern occurs at some index |
| Text.ContainsChar | app.js:217-221 | `includes` of a one-character string is membership of that character |
| Text.DecimalText | app.js:218 | the printed integer is a canonical numeral denoting the integer |
| Text.DecimalTextOfValue | app.js:218 | printing the value of a canonical numeral gives back that numeral |
| Numbers.ParseFloat | app.js:202 | parseFloat of a magnitude is a number exactly when it starts with a digit or a point followed by a digit, and it lies within one of the leading whole part |
| Numbers.ParseFloatOfDigits | app.js:202 | a digit run on its own reads as its value |
| Numbers.ParseFloatOfLiteral | app.js:202 | a literal `a.f` (either digit run possibly empty, not both) reads as a plus the fraction of f, and a second point ends the number |
| Numbers.ParseFloatLeadingPoint | app.js:202 | ".5" reads as 0.5 |
| Numbers.ParseFloatSecondPoint | app.js:202 | "1.2.3" reads as 1.2: a second point ends the number |
| Numbers.Round | app.js:218 | Math.round returns the integer within a half of its argument, ties upward |
| Numbers.ParseIntegerText | app.js:202 | the printed text of a non-negative integer parses back to that integer |
| Numbers.ParseTenthsText | app.js:222 | the one-decimal text of k tenths parses back to k/10 |
| Numbers.ToFixed1OfTenths | app.js:222 | toFixed(1) of a whole number of tenths prints exactly those tenths |
| Numbers.ToFixed1Nearest | app.js:222 | toFixed(1) of a non-negative number reads back within half a tenth of it |
| Easing.Progress | app.js:212-213 | the clamped progress never exceeds 1, equals 1 exactly once the duration has passed, and is elapsed/1500 before that |
| Easing.EaseOutQuart | app.js:244-246 | the ease-out maps [0, 1] into [0, 1] |
| Easing.EaseOutQuartSamples | app.js:244-246 | the ease-out is 0 at 0, 0.9375 at one half and 1 at 1 |
| Easing.EaseAtEnd | app.js:213-215 | past the duration the progress is 1 and the eased fraction is exactly 1 |
| Easing.EaseOutQuartIncreasing | app.js:244-246 | the ease-out is strictly increasing on [0, 1] |
| Easing.EaseOutQuartAboveLinear | app.js:244-246 | the ease-out never falls behind linear progress on [0, 1] |
| Easing.EaseOutQuartBelowOne | app.js:244-246 | the ease-out is below 1 for every progress below 1 |
| Metric.Magnitude | app.js:202 | the magnitude consists only of digits and points |
| Metric.Suffix | app.js:203 | the suffix holds no digit or point and does not start with whitespace |
| Metric.MagnitudeAndSuffixSplitText | app.js:202-203 | the magnitude is exactly the digits and points of the text in order, and the suffix is exactly its other characters in order with leading whitespace trimmed |
| Metric.Parse | app.js:201-205 | a text is animated exactly when its magnitude starts numerically; the parsed metric keeps the text and suffix and has a non-negative target |
| Metric.NoDigitLeavesTextUnchanged | app.js:202-205 | a text without digits, such as "N/A", is not animated and keeps its text |
| Metric.FormatOf | app.js:217-225 | the format is percent iff the suffix has `%`, thousands iff it has `K` and no `%`, one-decimal iff neither and the text has a point, plain otherwise |
| Metric.RenderShowsFormat | app.js:217-225 | the `if … else if` formatting chain equals the first-match dispatch over the four formats |
| Metric.FinalFrameShowsTarget | app.js:212-225 | every frame at or past the duration shows exactly the formatted target |
| Metric.FrameValueRises | app.js:212-215 | from the start the shown value lies between 0 and the target and never decreases |
| Metric.FrameValueBelowTarget | app.js:212-215 | before the duration has passed a positive target is not yet reached |
| Metric.RenderedIsFixedPoint | app.js:201-225 | any text the animator shows for a non-negative value parses and formats back to itself |
| Metric.FinalTextIdempotent | app.js:200-225 | animating the completed text again ends on the same text |
| Metric.RestoresPercent | app.js:217-218 | a text `<n>%` ends as it began |
| Metric.RestoresThousands | app.js:219-220 | a text `<n>K+` ends as it began |
| Metric.RestoresOneDecimal | app.js:221-222 | a one-decimal text whose unit has no digit, point, `%` or `K` and no leading whitespace ends as it began |
| Metric.RestoresInteger | app.js:223-224 | a numeral whose unit has no digit, point, `%` or `K` and no leading whitespace ends as it began |
| Metric.ThousandsGainPlus | app.js:219-220 | a text `<n>K` ends as `<n>K+` |
| Metric.DropsSpaceBeforeUnit | app.js:203 | in a text `<n><spaces><unit>` the whitespace between the number and the unit is gone at the end |
| Metric.DropsLeadingSpace | app.js:202-203 | whitespace in front of the number and whitespace before the unit are both gone at the end: `<spaces><n><spaces><unit>` ends as `<n><unit>` |
| Metric.PercentDropsRestOfUnit | app.js:217-218 | a text `<n>%<rest>` ends as `<n>%`: the rest of the unit is dropped |
| Metric.MergesSeparateNumbers | app.js:202 | the magnitude of `<a>-<b>` is the digits of a followed by those of b |
| Metric.MovesPrefixBehindNumber | app.js:202-203 | characters before the number, the first of them not whitespace, end up after it |
| Metric.RoundsTrailingZero | app.js:221-222 | a two-decimal text ending in 0 ends with one decimal |
| CountUp.CountUp | app.js:211-238 | one text per frame, each the eased fraction of the target; a new frame is requested only while progress is below 1; the completing frame shows the target |
| CountUp.CountUpMetric | app.js:211-238 | the frame loop with the metric's formatting shows the metric's frames and ends on the formatted target |
| CountUp.CountsUpShowsFrames | app.js:211-225 | every text a metric's count-up shows is that metric's frame text for the frame's elapsed time |
| CountUp.CompletedShowsFinalText | app.js:227-235 | a completed count-up ends on the element's final text |
| CountUp.Animate | app.js:200-239 | an unparseable text is left unchanged with nothing shown; otherwise the element ends on the last text the count-up showed |
| Priority.FirstMatch | app.js:217-225 | the dispatch picks the first applicable rule, and none only when no rule applies |
| Priority.FirstMatchUnique | app.js:272-298 | a rule that applies with no earlier rule applying is the one dispatched |
| Contact.Classify | app.js:272-298 | email iff the text has `@`; LinkedIn iff no `@` and `linkedin.com`; phone iff neither and `+91`; no handler iff none of the three |
| Contact.ClassifyIsFirstMatch | app.js:272-298 | the classification is the first kind in priority order whose marker occurs in the text |
| Contact.EmailTakesPrecedence | app.js:272-282 | an `@` makes a row an email row whatever else it contains |
| Contact.LinkedInBeforePhone | app.js:282-288 | without `@`, `linkedin.com` wins over `+91` |
| Contact.OnClick | app.js:272-297 | a click requests the row's link exactly when the row has a handler and opening does not fail; it shows a notice unless the row has no handler or a LinkedIn open fails; failing email and phone clicks show the row text |
| Contact.FallbackShowsText | app.js:272-297 | a failed email or phone click shows a notice ending in the full row text |
| Contact.HandledClickIsVisible | app.js:272-297 | every handled click opens its link or shows a notice, except a failing LinkedIn click |
| Reveal.ObserveAll | app.js:130-133 | observing targets whose effect has not run keeps the one-shot invariant |
| Reveal.Intersecting | app.js:100-101 | every intersecting entry's target is among the targets the batch fires, and every fired target comes from an intersecting entry |
| Reveal.IntersectingSingle | app.js:100-101 | one entry fires its target exactly when it is intersecting |
| Reveal.IntersectingAppend | app.js:100-101 | entries fire in the order reported, each as often as it occurs: the targets of two runs of entries are those of the first followed by those of the second |
| Reveal.Callback | app.js:99-128 | one batch appends the intersecting targets to the effects run and unobserves them |
| Reveal.CallbackKeepsOneShot | app.js:99-128 | a reported batch keeps the invariant that no effect ran twice and no fired target is still observed |
| Reveal.AtMostOnce | app.js:183-190 | over any reported series of batches each target's effect runs at most once |
| Reveal.RunOnlyFiresObserved | app.js:447-456 | when every batch reports only observed targets (repeats allowed), effects only accumulate, each new effect belongs to a target observed at the start, and the observed set only shrinks |
| Reveal.SetUpIsOneShot | app.js:192-194 | after the set-up loop the invariant holds |
| Reveal.NotIntersectingIgnored | app.js:100-101 | an entry that is not intersecting changes nothing |
| Reveal.RepeatedEntryFiresTwice | app.js:183-190 | the callback does not check observation, so two intersecting entries for one target in a batch run its effect twice |
| Stagger.ChildDelayIncreasing | app.js:117-122 | later children wait strictly longer, by 100 ms per position |
| Stagger.ChildTimers | app.js:117-122 | child `i` gets one timer, for showing child `i`, at `100 * (i + 1)` ms |
| Stagger.SectionTimers | app.js:107-123 | a section starts one timer per child plus one for its title when it has one; the title timer comes first at 200 ms and child i's timer, at `100 + 100 * i` ms, follows at position i after it |
| Stagger.EachChildOnce | app.js:107-123 | each child has exactly one timer among the section's timers |
| Stagger.ChildrenInOrder | app.js:117-122 | children appear in document order |
| Stagger.TitleBetweenFirstChildren | app.js:107-122 | the title appears after the first child and before the second |
| Stagger.SectionDoneBy | app.js:107-122 | every timer of a section is due by 100 ms per child, or by 200 ms when the title is later |

## Left out

- The exact reals stand for JavaScript doubles, so floating-point effects are not modelled. This covers binary rounding in `toFixed` (`0.15.toFixed(1)`), `Math.pow` rounding, and exponent notation at 10^21 and above.
- Numbers.ParseFloat: takes only strings of digits and points. This is the only kind of string the source passes it, as the filtered magnitude. Signs, exponents, leading whitespace and `Infinity` are not modelled.
- Numbers.Round: rounds an exact real half up, as `Math.round` does. In app.js its argument is a double.
- Text.IsSpace: characters are Unicode scalar values, while JavaScript strings are UTF-16 code units. Surrogate pairs, lone surrogates and Unicode normalisation are not modelled. No character class used here (`\d`, `[\d.]`, `\s`, `@`, `K`, `%`) contains a surrogate, so the difference does not change any result.
- Scheduling is not modelled. The `requestAnimationFrame` timestamps and the animation start time are inputs to the frame loop. Timers are a list of (delay, action) pairs that run in delay order, ties in start order. Wall-clock behaviour is not modelled.
- The completion colour effect and its 300 ms timer (app.js:230-234) are style writes and are not modelled.
- Stagger.KpiTimers: gives the 500 ms pulse timer (app.js:450-452). No property is stated about it beyond its delay.
- `IntersectionObserver` geometry is not modelled: the 0.1 threshold and the bottom margin. Which entries a batch holds is an input.
- Reveal.AtMostOnce: holds only when the platform reports entries for observed targets only, with at most one intersecting entry per target per batch. The callback itself does not check this (see `Reveal.RepeatedEntryFiresTwice`).
- Contact.OnClick: `window.location.href`, `window.open` and `showNotification` are reduced to the link requested, a flag saying whether opening throws, and the notice text. The notice's display and removal timers are not modelled.
- Hover, focus and keyboard handlers are not modelled. Nor are the inline style writes of the section, title, child and KPI elements, `optimizeForPrint`, the smooth-scroll navigation or the `window.NiceResumeApp` export. They are DOM side effects with no logic to state.
- Single example texts are not stated as lemmas of their own. The general `Metric.Restores…` lemmas cover them for all numerals.

=== FILE: contact.dfy ===
/** The contact rows of app.js (`initContactInteractions`): the text of a
    row decides, in priority order, whether a click opens the mail client,
    the LinkedIn profile in a new tab, the phone dialer, or does nothing; the
    click then shows a notice. */
module Contact {
  import opened Options
  import opened Text
  import opened Priority

  /** The kinds of row that get a click handler, in the order they are tested. */
  datatype Kind = Email | LinkedIn | Phone

  const Kinds: seq<Kind> := [Email, LinkedIn, Phone]

  /** The text whose presence selects a kind. */
  function Marker(k: Kind): string {
    match k
    case Email => "@"
    case LinkedIn => "linkedin.com"
    case Phone => "+91"
  }

  /** The scheme put in front of the row text to build the link. */
  function Scheme(k: Kind): string {
    match k
    case Email => "mailto:"
    case LinkedIn => "https://"
    case Phone => "tel:"
  }

  /** The link a click on a row of kind `k` opens. */
  function Link(k: Kind, text: string): string {
    Scheme(k) + text
  }

  /** The handler the row with text `text` gets: the `if … else if …` chain
      on `text.includes(…)`. */
  function Classify(text: string): (r: Option<Kind>)
    ensures r == Some(Email) <==> Contains(text, "@")
    ensures r == Some(LinkedIn) <==> !Contains(text, "@") && Contains(text, "linkedin.com")
    ensures r == Some(Phone) <==> !Contains(text, "@") && !Contains(text, "linkedin.com") && Contains(text, "+91")
    ensures r.None? <==> !Contains(text, "@") && !Contains(text, "linkedin.com") && !Contains(text, "+91")
  {
    if Contains(text, "@") then Some(Email)
    else if Contains(text, "linkedin.com") then Some(LinkedIn)
    else if Contains(text, "+91") then Some(Phone)
    else None
  }

  /** The classification is the first kind in priority order whose marker
      occurs in the text. */
  lemma ClassifyIsFirstMatch(text: string)
    ensures Classify(text) ==
      match FirstMatch(Kinds, k => Contains(text, Marker(k)))
      case None => None
      case Some(i) => Some(Kinds[i])
  {
    var applies := k => Contains(text, Marker(k));
    match Classify(text)
    case Some(Email) =>
      FirstMatchUnique(Kinds, applies, 0);
    case Some(LinkedIn) =>
      FirstMatchUnique(Kinds, applies, 1);
    case Some(Phone) =>
      FirstMatchUnique(Kinds, applies, 2);
    case None =>
      assert forall j :: 0 <= j < |Kinds| ==> !applies(Kinds[j]);
  }

  /** An `@` makes a row an email row whatever else it contains. */
  lemma EmailTakesPrecedence(text: string)
    requires '@' in text
    ensures Classify(text) == Some(Email)
  {
    ContainsChar(text, '@');
  }

  /** A row naming linkedin.com without an `@` is a LinkedIn row even when it
      also contains `+91`. */
  lemma LinkedInBeforePhone(text: string)
    requires '@' !in text
    requires Contains(text, "linkedin.com") && Contains(text, "+91")
    ensures Classify(text) == Some(LinkedIn)
  {
    ContainsChar(text, '@');
  }

  /** The outcome of one click: the link the browser was asked to open, if
      the request went through, and the notice shown, if any. */
  datatype Click = Click(request: Option<string>, notice: Option<string>)

  const EmailNotice := "Opening email client..."
  const EmailFallback := "Please copy email address: "
  const LinkedInNotice := "LinkedIn profile opened in new tab"
  const PhoneNotice := "Opening phone dialer..."
  const PhoneFallback := "Phone number: "

  /** A click on the row with text `text`; `fails` says whether the browser
      call that opens the link throws. The email and phone handlers catch the
      failure and show the row text instead; the LinkedIn handler has no
      `catch`, so a failure ends it before its notice. A row without a
      handler does nothing. */
  function OnClick(text: string, fails: bool): (c: Click)
    ensures c.request.Some? <==> Classify(text).Some? && !fails
    ensures c.request.Some? ==> c.request.value == Link(Classify(text).value, text)
    ensures c.notice.None? <==> Classify(text).None? || (Classify(text) == Some(LinkedIn) && fails)
    ensures Classify(text) == Some(Email) && fails ==> c.notice == Some(EmailFallback + text)
    ensures Classify(text) == Some(Phone) && fails ==> c.notice == Some(PhoneFallback + text)
  {
    match Classify(text)
    case None => Click(None, None)
    case Some(Email) =>
      if fails then Click(None, Some(EmailFallback + text))
      else Click(Some(Link(Email, text)), Some(EmailNotice))
    case Some(LinkedIn) =>
      if fails then Click(None, None)
      else Click(Some(Link(LinkedIn, text)), Some(LinkedInNotice))
    case Some(Phone) =>
      if fails then Click(None, Some(PhoneFallback + text))
      else Click(Some(Link(Phone, text)), Some(PhoneNotice))
  }

  /** Whenever an email or phone click cannot open its link, the notice
      still shows the full row text, so the address or number can be read
      and copied. */
  lemma FallbackShowsText(text: string)
    requires Classify(text) == Some(Email) || Classify(text) == Some(Phone)
    ensures OnClick(text, true).notice.Some?
    ensures var n := OnClick(text, true).notice.value;
      |text| <= |n| && n[|n| - |text|..] == text
  {
  }

  /** Every handled click either opens its link or, for email and phone,
      says what to do instead: only a failing LinkedIn click is silent. */
  lemma HandledClickIsVisible(text: string, fails: bool)
    requires Classify(text).Some?
    ensures OnClick(text, fails).request.Some? || OnClick(text, fails).notice.Some? || Classify(text) == Some(LinkedIn)
  {
  }
}

=== FILE: countup.dfy ===
/** The frame loop of app.js's `animateMetric` (`updateNumber`): one text
    per animation frame, each showing the eased fraction of the target, until
    the first frame at or past the duration. */
module CountUp {
  import opened Options
  import opened Numbers
  import opened Easing
  import opened Metric

  /** `shown` and `done` are what a count-up to `target`, showing each value
      through `format`, shows for the frame timestamps `frames` (`start` is
      the clock reading when the animation began): one text per frame, each
      the eased fraction of the target, with a further frame requested only
      while the progress is below 1; `done` says whether the completion
      branch ran, and the completing frame shows the target itself. */
  predicate CountsUpWith(target: real, format: real -> string, start: real, frames: seq<real>,
                         shown: seq<string>, done: bool)
  {
    && |shown| <= |frames|
    && (forall k :: 0 <= k < |shown| ==> shown[k] == format(FrameValue(target, frames[k] - start)))
    && (forall k :: 0 <= k < |shown| - 1 ==> frames[k] - start < Duration)
    && (done <==> |shown| > 0 && frames[|shown| - 1] - start >= Duration)
    && (!done ==> |shown| == |frames|)
    && (done ==> shown[|shown| - 1] == format(target))
  }

  /** The frame loop of `animateMetric` (`updateNumber`). */
  method CountUp(target: real, format: real -> string, start: real, frames: seq<real>)
    returns (shown: seq<string>, done: bool)
    ensures CountsUpWith(target, format, start, frames, shown, done)
  {
    shown, done := [], false;
    var k := 0;
    while k < |frames| && !done
      invariant 0 <= k <= |frames|
      invariant |shown| == k
      invariant forall i :: 0 <= i < k ==> shown[i] == format(FrameValue(target, frames[i] - start))
      invariant forall i :: 0 <= i < k - 1 ==> frames[i] - start < Duration
      invariant done <==> k > 0 && frames[k - 1] - start >= Duration
    {
      var elapsed := frames[k] - start;
      var progress := Progress(elapsed);
      var current := target * EaseOutQuart(progress);
      assert current == FrameValue(target, elapsed);
      shown := shown + [format(current)];
      done := progress >= 1.0;
      k := k + 1;
    }
    if done {
      EaseAtEnd(frames[k - 1] - start);
      assert FrameValue(target, frames[k - 1] - start) == target;
    }
  }

  /** The formatting `animateMetric` applies to every value it shows for `m`. */
  function Formatter(m: Metric): real -> string {
    v => Render(m, v)
  }

  /** The count-up of a parsed metric: the frame loop with the metric's own
      formatting rules. */
  predicate CountsUp(m: Metric, start: real, frames: seq<real>, shown: seq<string>, done: bool) {
    CountsUpWith(m.target, Formatter(m), start, frames, shown, done)
  }

  /** A completed count-up ends on the element's final text. */
  lemma CompletedShowsFinalText(text: string, start: real, frames: seq<real>, shown: seq<string>, done: bool)
    requires Parse(text).Some?
    requires CountsUp(Parse(text).value, start, frames, shown, done)
    requires done
    ensures shown[|shown| - 1] == FinalText(text)
  {
    var m := Parse(text).value;
    assert Formatter(m)(m.target) == Render(m, m.target);
  }

  /** Every frame of a metric's count-up shows the metric's frame text. */
  lemma CountsUpShowsFrames(m: Metric, start: real, frames: seq<real>, shown: seq<string>, done: bool)
    requires CountsUp(m, start, frames, shown, done)
    ensures forall k :: 0 <= k < |shown| ==> shown[k] == Frame(m, frames[k] - start)
  {
    forall k | 0 <= k < |shown| ensures shown[k] == Frame(m, frames[k] - start) {
      assert shown[k] == Formatter(m)(FrameValue(m.target, frames[k] - start));
    }
  }

  /** The count-up of a parsed metric: `CountUp` with the metric's own
      formatting rules. */
  method CountUpMetric(m: Metric, start: real, frames: seq<real>)
    returns (shown: seq<string>, done: bool)
    ensures CountsUp(m, start, frames, shown, done)
  {
    shown, done := CountUp(m.target, Formatter(m), start, frames);
  }

  /** `animateMetric(element)` for an element whose text is `text`: an
      unparseable magnitude returns at once and leaves the text unchanged;
      otherwise the frame loop runs. Returns the texts shown, whether the
      animation completed, and the element's text afterwards: the last text
      shown, which is the formatted target once the animation completed
      (`CompletedShowsFinalText`). */
  method Animate(text: string, start: real, frames: seq<real>)
    returns (shown: seq<string>, done: bool, final: string)
    ensures Parse(text).None? ==> shown == [] && !done && final == text
    ensures Parse(text).Some? ==> CountsUp(Parse(text).value, start, frames, shown, done)
    ensures final == if |shown| == 0 then text else shown[|shown| - 1]
  {
    var parsed := Parse(text);
    if parsed.Some? {
      shown, done := CountUpMetric(parsed.value, start, frames);
    } else {
      shown, done := [], false;
    }
    final := if |shown| == 0 then text else shown[|shown| - 1];
  }
}

=== FILE: easing.dfy ===
/** The timing curve of the metric count-up (app.js, `animateMetric` and
    `easeOutQuart`): the elapsed time is turned into a progress clamped at 1,
    and the progress into the displayed fraction of the target by the quartic
    ease-out curve. Exact reals stand for JavaScript's doubles. */
module Easing {

  /** The count-up lasts 1500 ms. */
  const Duration: real := 1500.0

  /** `Math.min(elapsed / duration, 1)`. The elapsed time is a frame's
      timestamp minus the start time and may be negative, so the progress has
      no lower bound of its own. */
  function Progress(elapsed: real): (p: real)
    ensures p <= 1.0
    ensures p == 1.0 <==> elapsed >= Duration
    ensures p < 1.0 ==> p * Duration == elapsed
    ensures elapsed >= 0.0 ==> p >= 0.0
  {
    var ratio := elapsed / Duration;
    if ratio < 1.0 then ratio else 1.0
  }

  function Pow4(x: real): real {
    x * x * x * x
  }

  lemma MulMonotone(a: real, b: real, c: real, d: real)
    requires 0.0 <= a <= b && 0.0 <= c <= d
    ensures a * c <= b * d
  {
    assert a * c <= b * c;
    assert b * c <= b * d;
  }

  lemma MulStrict(a: real, b: real, c: real, d: real)
    requires 0.0 <= a < b && 0.0 <= c < d
    ensures a * c < b * d
  {
    MulMonotone(a, a, c, d);
    assert a * d < b * d;
  }

  lemma MulLeftStrict(x: real, a: real, b: real)
    requires x > 0.0 && a < b
    ensures x * a < x * b
  {
    assert x * (b - a) > 0.0;
  }

  /** The fourth power maps [0, 1] into [0, 1] and never exceeds its argument there. */
  lemma Pow4Unit(u: real)
    requires 0.0 <= u <= 1.0
    ensures 0.0 <= Pow4(u) <= u <= 1.0
  {
    var u2 := u * u;
    var u3 := u2 * u;
    MulMonotone(0.0, u, 0.0, u);
    MulMonotone(u, 1.0, u, u);
    assert 0.0 <= u2 <= u;
    MulMonotone(0.0, u2, 0.0, u);
    MulMonotone(u2, u2, u, 1.0);
    assert 0.0 <= u3 <= u2;
    MulMonotone(0.0, u3, 0.0, u);
    MulMonotone(u3, u3, u, 1.0);
    assert 0.0 <= u3 * u <= u3;
    assert Pow4(u) == u3 * u;
  }

  /** The fourth power is strictly increasing on the non-negative reals. */
  lemma Pow4Increasing(u: real, v: real)
    requires 0.0 <= u < v
    ensures Pow4(u) < Pow4(v)
  {
    MulStrict(u, v, u, v);
    MulMonotone(0.0, u, 0.0, u);
    MulStrict(u * u, v * v, u, v);
    MulMonotone(0.0, u * u, 0.0, u);
    MulStrict(u * u * u, v * v * v, u, v);
  }

  /** `easeOutQuart(t) = 1 - (1 - t)^4`: on [0, 1] it stays within [0, 1]. */
  function EaseOutQuart(t: real): (r: real)
    ensures 0.0 <= t <= 1.0 ==> 0.0 <= r <= 1.0
  {
    if 0.0 <= t <= 1.0 then Pow4Unit(1.0 - t); 1.0 - Pow4(1.0 - t)
    else 1.0 - Pow4(1.0 - t)
  }

  /** The curve starts at 0, reaches 0.9375 half-way and ends exactly at 1. */
  lemma EaseOutQuartSamples()
    ensures EaseOutQuart(0.0) == 0.0
    ensures EaseOutQuart(0.5) == 0.9375
    ensures EaseOutQuart(1.0) == 1.0
  {
  }

  /** Once the duration has passed the clamped progress is 1 and the curve
      returns exactly 1: the last frame shows the whole target. */
  lemma EaseAtEnd(elapsed: real)
    requires elapsed >= Duration
    ensures Progress(elapsed) == 1.0
    ensures EaseOutQuart(Progress(elapsed)) == 1.0
  {
    assert Pow4(0.0) == 0.0;
  }

  /** The curve is strictly increasing on [0, 1]: the displayed value never
      moves backwards while time moves forwards. */
  lemma EaseOutQuartIncreasing(s: real, t: real)
    requires 0.0 <= s < t <= 1.0
    ensures EaseOutQuart(s) < EaseOutQuart(t)
  {
    Pow4Increasing(1.0 - t, 1.0 - s);
  }

  /** An ease-out curve runs ahead of linear progress on [0, 1]. */
  lemma EaseOutQuartAboveLinear(t: real)
    requires 0.0 <= t <= 1.0
    ensures t <= EaseOutQuart(t)
  {
    Pow4Unit(1.0 - t);
  }

  /** The curve reaches 1 only at progress 1: before the end the fraction
      shown is strictly below the target fraction. */
  lemma EaseOutQuartBelowOne(t: real)
    requires t < 1.0
    ensures EaseOutQuart(t) < 1.0
  {
    Pow4Increasing(0.0, 1.0 - t);
  }
}

=== FILE: metric.dfy ===
/** The metric count-up of app.js (`animateMetric`): a metric element's text
    is split into a numeric magnitude and a unit suffix, and each animation
    frame shows the eased fraction of the target formatted by one of four
    rules. */
module Metric {
  import opened Text
  import opened Options
  import opened Numbers
  import opened Easing
  import opened Priority

  /** A parsed metric: its original text, the target value and the unit suffix. */
  datatype Metric = Metric(text: string, target: real, suffix: string)

  /** A suffix as the animator extracts it: no digit or point, and no
      leading whitespace. */
  predicate IsSuffixText(s: string) {
    AllSatisfy(s, IsOtherChar) && (|s| > 0 ==> !IsSpace(s[0]))
  }

  /** `text.replace(/[^\d.]/g, '')`. */
  function Magnitude(text: string): (r: string)
    ensures IsMagnitudeText(r)
  {
    Filter(text, IsMagnitudeChar)
  }

  /** `text.replace(/[\d.]/g, '').replace(/^\s+/, '')`. */
  function Suffix(text: string): (r: string)
    ensures IsSuffixText(r)
  {
    TrimStart(Filter(text, IsOtherChar))
  }

  /** The magnitude is exactly the digits and points of the text in their
      original order, and the suffix is exactly the remaining characters in
      their original order with the leading whitespace removed: the text is
      an order-preserving merge of the two parts, and no other split into
      magnitude characters and other characters exists. */
  lemma MagnitudeAndSuffixSplitText(text: string, a: string, b: string)
    requires Interleaving(text, a, b)
    requires AllSatisfy(a, IsMagnitudeChar) && AllSatisfy(b, IsOtherChar)
    ensures a == Magnitude(text)
    ensures Interleaving(text, Magnitude(text), Filter(text, IsOtherChar))
    ensures Suffix(text) == TrimStart(b)
  {
    FilterSplits(text, IsMagnitudeChar, IsOtherChar);
    FilterSplitUnique(text, a, b, IsMagnitudeChar, IsOtherChar);
  }

  /** `parseFloat` of the magnitude, and `None` when the result is NaN, in
      which case `animateMetric` returns without touching the element. */
  function Parse(text: string): (r: Option<Metric>)
    ensures r.None? <==> !StartsNumeric(Magnitude(text))
    ensures r.Some? ==> r.value.text == text && r.value.suffix == Suffix(text)
    ensures r.Some? ==> r.value.target >= 0.0
  {
    match ParseFloat(Magnitude(text))
    case None => None
    case Some(v) => Some(Metric(text, v, Suffix(text)))
  }

  /** The text shown for the value `current`, by the first rule that applies:
      a suffix with `%` shows the rounded value and `%`; a suffix with `K`
      shows the rounded value and `K+`; an original text with a point shows
      the value to one decimal and the suffix; otherwise the rounded value
      and the suffix. (`includes` of one character is membership, see
      `Text.ContainsChar`.) */
  function Render(m: Metric, current: real): string {
    if '%' in m.suffix then IntegerText(Round(current)) + "%"
    else if 'K' in m.suffix then IntegerText(Round(current)) + "K+"
    else if '.' in m.text then ToFixed1(current) + m.suffix
    else IntegerText(Round(current)) + m.suffix
  }

  /** The four display formats, in the order `animateMetric` tests their
      conditions. */
  datatype Format = Percent | Thousands | OneDecimal | Plain

  const Formats: seq<Format> := [Percent, Thousands, OneDecimal, Plain]

  /** The condition under which a format is chosen, tested in the order of
      `Formats`. */
  predicate Applies(f: Format, m: Metric) {
    match f
    case Percent => '%' in m.suffix
    case Thousands => 'K' in m.suffix
    case OneDecimal => '.' in m.text
    case Plain => true
  }

  /** The text a format shows for the value `v`. */
  function Show(f: Format, m: Metric, v: real): string {
    match f
    case Percent => IntegerText(Round(v)) + "%"
    case Thousands => IntegerText(Round(v)) + "K+"
    case OneDecimal => ToFixed1(v) + m.suffix
    case Plain => IntegerText(Round(v)) + m.suffix
  }

  /** The format of `m`: the first one in priority order whose condition
      holds. A `%` in the suffix wins even over a `K`, a `K` wins over a point
      in the text, and a text with none of them is plain. */
  function FormatOf(m: Metric): (f: Format)
    ensures f == Percent <==> '%' in m.suffix
    ensures f == Thousands <==> '%' !in m.suffix && 'K' in m.suffix
    ensures f == OneDecimal <==> '%' !in m.suffix && 'K' !in m.suffix && '.' in m.text
    ensures f == Plain <==> '%' !in m.suffix && 'K' !in m.suffix && '.' !in m.text
  {
    var r := FirstMatch(Formats, g => Applies(g, m));
    assert Applies(Formats[3], m);
    Formats[r.value]
  }

  /** The formatting of `animateMetric` is the priority dispatch over the
      four formats. */
  lemma RenderShowsFormat(m: Metric, v: real)
    ensures Render(m, v) == Show(FormatOf(m), m, v)
  {
  }

  /** A text without any digit, such as "N/A", has no number to count up
      to: the animator leaves it unchanged. */
  lemma NoDigitLeavesTextUnchanged(text: string)
    requires forall i :: 0 <= i < |text| ==> !IsDigit(text[i])
    ensures Parse(text).None?
    ensures FinalText(text) == text
  {
    var mag := Magnitude(text);
    FilterCounts(text, IsMagnitudeChar);
    forall i | 0 <= i < |mag| ensures !IsDigit(mag[i]) {
      var c := mag[i];
      assert multiset(mag)[c] > 0;
      assert multiset(text)[c] > 0;
      var j :| 0 <= j < |text| && text[j] == c;
    }
  }

  /** The value a frame at `elapsed` milliseconds shows before formatting:
      `number * easeOutQuart(progress)`. */
  function FrameValue(target: real, elapsed: real): real {
    target * EaseOutQuart(Progress(elapsed))
  }

  /** The text a frame at `elapsed` milliseconds shows. */
  function Frame(m: Metric, elapsed: real): string {
    Render(m, FrameValue(m.target, elapsed))
  }

  /** The element's text once the count-up is over: the target formatted by
      the rules, or the original text when the magnitude is not a number. */
  function FinalText(text: string): string {
    match Parse(text)
    case None => text
    case Some(m) => Render(m, m.target)
  }

  /** Any frame at or past the duration shows exactly the formatted target:
      the clamp makes the progress 1 and the curve returns exactly 1. */
  lemma FinalFrameShowsTarget(text: string, elapsed: real)
    requires Parse(text).Some?
    requires elapsed >= Duration
    ensures Frame(Parse(text).value, elapsed) == FinalText(text)
  {
    FrameAtEnd(Parse(text).value, elapsed);
  }

  /** Any frame at or past the duration shows the formatted target. */
  lemma FrameAtEnd(m: Metric, elapsed: real)
    requires elapsed >= Duration
    ensures Frame(m, elapsed) == Render(m, m.target)
  {
    EaseAtEnd(elapsed);
    assert FrameValue(m.target, elapsed) == m.target;
  }

  /** While the clock runs forward from the start, the shown value stays
      between 0 and the target, never decreases, and stays strictly below a
      positive target until the duration has passed. */
  lemma FrameValueRises(target: real, e1: real, e2: real)
    requires target >= 0.0
    requires 0.0 <= e1 <= e2
    ensures 0.0 <= FrameValue(target, e1) <= FrameValue(target, e2) <= target
    ensures e1 < Duration && target > 0.0 ==> FrameValue(target, e1) < target
  {
    FrameValueWithinTarget(target, e1);
    FrameValueWithinTarget(target, e2);
    FrameValueMonotone(target, e1, e2);
    if e1 < Duration && target > 0.0 {
      FrameValueBelowTarget(target, e1);
    }
  }

  /** From the start on, the shown value lies between 0 and the target. */
  lemma FrameValueWithinTarget(target: real, elapsed: real)
    requires target >= 0.0 && elapsed >= 0.0
    ensures 0.0 <= FrameValue(target, elapsed) <= target
  {
    var p := Progress(elapsed);
    assert 0.0 <= p <= 1.0;
    var f := EaseOutQuart(p);
    assert 0.0 <= f <= 1.0;
    MulMonotone(0.0, target, 0.0, f);
    MulMonotone(target, target, f, 1.0);
    assert FrameValue(target, elapsed) == target * f;
  }

  /** The shown value never decreases while the clock runs forward. */
  lemma FrameValueMonotone(target: real, e1: real, e2: real)
    requires target >= 0.0
    requires 0.0 <= e1 <= e2
    ensures FrameValue(target, e1) <= FrameValue(target, e2)
  {
    var p1, p2 := Progress(e1), Progress(e2);
    assert 0.0 <= p1 <= p2 <= 1.0;
    var f1, f2 := EaseOutQuart(p1), EaseOutQuart(p2);
    if p1 < p2 {
      EaseOutQuartIncreasing(p1, p2);
    }
    assert f1 <= f2;
    MulMonotone(target, target, f1, f2);
    assert FrameValue(target, e1) == target * f1;
    assert FrameValue(target, e2) == target * f2;
  }

  /** Before the duration has passed a positive target is not yet reached. */
  lemma FrameValueBelowTarget(target: real, elapsed: real)
    requires target > 0.0
    requires elapsed < Duration
    ensures FrameValue(target, elapsed) < target
  {
    var p := Progress(elapsed);
    assert p < 1.0;
    EaseOutQuartBelowOne(p);
    var f := EaseOutQuart(p);
    MulLeftStrict(target, f, 1.0);
    assert FrameValue(target, elapsed) == target * f;
  }

  /** The magnitude of a number followed by characters that are neither
      digits nor points is the number. */
  lemma MagnitudeOfNumberThenOthers(num: string, rest: string)
    requires IsMagnitudeText(num) && AllSatisfy(rest, IsOtherChar)
    ensures Magnitude(num + rest) == num
  {
    FilterAppend(num, rest, IsMagnitudeChar);
    FilterAll(num, IsMagnitudeChar);
    FilterAll(rest, IsMagnitudeChar);
    assert num + [] == num;
  }

  /** The other characters of a number followed by characters that are
      neither digits nor points are those characters. */
  lemma OthersOfNumberThenOthers(num: string, rest: string)
    requires IsMagnitudeText(num) && AllSatisfy(rest, IsOtherChar)
    ensures Filter(num + rest, IsOtherChar) == rest
  {
    FilterAppend(num, rest, IsOtherChar);
    FilterAll(num, IsOtherChar);
    FilterAll(rest, IsOtherChar);
    assert [] + rest == rest;
  }

  /** A rendered number followed by a suffix splits back into that number
      and that suffix. */
  lemma SplitRendered(num: string, s: string)
    requires IsMagnitudeText(num)
    requires IsSuffixText(s)
    ensures Magnitude(num + s) == num
    ensures Suffix(num + s) == s
  {
    MagnitudeOfNumberThenOthers(num, s);
    OthersOfNumberThenOthers(num, s);
  }

  lemma IntegerTextIsMagnitude(n: nat)
    ensures IntegerText(n) == DecimalText(n)
    ensures IsMagnitudeText(IntegerText(n))
    ensures '.' !in IntegerText(n)
  {
    ParseIntegerText(n);
  }

  /** A rendered number followed by a suffix parses back to that number and
      that suffix. */
  lemma RenderedParsesBack(num: string, s: string, v: real)
    requires IsMagnitudeText(num) && IsSuffixText(s)
    requires ParseFloat(num) == Some(v)
    ensures Parse(num + s) == Some(Metric(num + s, v, s))
    ensures FinalText(num + s) == Render(Metric(num + s, v, s), v)
  {
    SplitRendered(num, s);
  }

  /** The text of a non-negative integer parses back to it. */
  lemma IntegerRendered(n: nat, s: string)
    requires IsSuffixText(s)
    ensures FinalText(IntegerText(n) + s) == Render(Metric(IntegerText(n) + s, n as real, s), n as real)
  {
    IntegerTextIsMagnitude(n);
    ParseIntegerText(n);
    RenderedParsesBack(IntegerText(n), s, n as real);
  }

  /** The one-decimal text of `k` tenths parses back to `k / 10`. */
  lemma TenthsRendered(k: nat, s: string)
    requires IsSuffixText(s)
    ensures FinalText(TenthsText(k) + s) == Render(Metric(TenthsText(k) + s, k as real / 10.0, s), k as real / 10.0)
    ensures '.' in TenthsText(k) + s
  {
    ParseTenthsText(k);
    RenderedParsesBack(TenthsText(k), s, k as real / 10.0);
    var t := TenthsText(k) + s;
    assert t[|DecimalText(k / 10)|] == '.';
  }

  /** Any text the animator shows for a non-negative value reads back as
      itself: parsing it and formatting the parsed target gives the same
      text. */
  lemma RenderedIsFixedPoint(m: Metric, v: real)
    requires IsSuffixText(m.suffix)
    requires v >= 0.0
    ensures FinalText(Render(m, v)) == Render(m, v)
  {
    FixedSuffixes();
    var n := Round(v);
    assert n >= 0;
    if '%' in m.suffix {
      IntegerRendered(n, "%");
      RoundInteger(n);
    } else if 'K' in m.suffix {
      IntegerRendered(n, "K+");
      RoundInteger(n);
    } else if '.' in m.text {
      RenderedDecimalIsFixedPoint(m, v);
    } else {
      RenderedPlainIsFixedPoint(m, n);
    }
  }

  lemma RenderedDecimalIsFixedPoint(m: Metric, v: real)
    requires IsSuffixText(m.suffix)
    requires v >= 0.0
    requires '%' !in m.suffix && 'K' !in m.suffix && '.' in m.text
    ensures FinalText(Render(m, v)) == Render(m, v)
  {
    var k := Round(v * 10.0);
    assert k >= 0;
    assert Render(m, v) == TenthsText(k) + m.suffix;
    TenthsRendered(k, m.suffix);
    ToFixed1OfTenths(k);
  }

  lemma RenderedPlainIsFixedPoint(m: Metric, n: nat)
    requires IsSuffixText(m.suffix)
    requires '%' !in m.suffix && 'K' !in m.suffix && '.' !in m.text
    ensures FinalText(IntegerText(n) + m.suffix) == IntegerText(n) + m.suffix
  {
    IntegerRendered(n, m.suffix);
    RoundInteger(n);
    IntegerTextIsMagnitude(n);
    assert '.' !in m.suffix;
    assert '.' !in IntegerText(n) + m.suffix;
  }

  /** Re-running the animator on the text it finished with shows the same
      text again: the completed display is a fixed point of the animator. */
  lemma FinalTextIdempotent(text: string)
    ensures FinalText(FinalText(text)) == FinalText(text)
  {
    match Parse(text)
    case None =>
    case Some(m) =>
      RenderedIsFixedPoint(m, m.target);
  }

  /** A text that is a plain numeral followed by a suffix that has no `%` or
      `K` (nor any digit, point or leading whitespace) ends exactly as it began. */
  lemma RestoresInteger(n: nat, suffix: string)
    requires IsSuffixText(suffix)
    requires '%' !in suffix && 'K' !in suffix
    ensures FinalText(DecimalText(n) + suffix) == DecimalText(n) + suffix
  {
    IntegerRendered(n, suffix);
    RoundInteger(n);
    IntegerTextIsMagnitude(n);
    assert '.' !in suffix;
    assert '.' !in IntegerText(n) + suffix;
  }

  /** A percentage `<n>%` ends exactly as it began. */
  lemma RestoresPercent(n: nat)
    ensures FinalText(DecimalText(n) + "%") == DecimalText(n) + "%"
  {
    FixedSuffixes();
    IntegerRendered(n, "%");
    RoundInteger(n);
  }

  lemma FixedSuffixes()
    ensures IsSuffixText("%") && '%' in "%"
    ensures IsSuffixText("K+") && '%' !in "K+" && 'K' in "K+"
  {
  }

  /** A count in thousands `<n>K+` ends exactly as it began. */
  lemma RestoresThousands(n: nat)
    ensures FinalText(DecimalText(n) + "K+") == DecimalText(n) + "K+"
  {
    FixedSuffixes();
    IntegerRendered(n, "K+");
    RoundInteger(n);
  }

  /** A one-decimal number `<w>.<d>` followed by a suffix that has no `%` or
      `K` ends exactly as it began: the decimal precision is preserved. */
  lemma RestoresOneDecimal(k: nat, suffix: string)
    requires IsSuffixText(suffix)
    requires '%' !in suffix && 'K' !in suffix
    ensures FinalText(TenthsText(k) + suffix) == TenthsText(k) + suffix
  {
    TenthsRendered(k, suffix);
    ToFixed1OfTenths(k);
  }

  /** The final text of any text whose magnitude and suffix are known. */
  lemma FinalTextOfParts(t: string, num: string, s: string, v: real)
    requires Magnitude(t) == num && Suffix(t) == s
    requires ParseFloat(num) == Some(v)
    ensures FinalText(t) == Render(Metric(t, v, s), v)
  {
  }

  /** A count written with a bare `K` gains a plus sign: "10K" ends as "10K+". */
  lemma ThousandsGainPlus(n: nat)
    ensures FinalText(DecimalText(n) + "K") == DecimalText(n) + "K+"
  {
    assert IsSuffixText("K") && 'K' in "K" && '%' !in "K";
    IntegerRendered(n, "K");
    RoundInteger(n);
  }

  /** Filtering a three-part text by a class that keeps all of the middle
      part and none of the outer parts gives the middle part. */
  lemma FilterMiddle(p: string, num: string, s: string, keep: char -> bool)
    requires forall i :: 0 <= i < |p| ==> !keep(p[i])
    requires AllSatisfy(num, keep)
    requires forall i :: 0 <= i < |s| ==> !keep(s[i])
    ensures Filter(p + num + s, keep) == num
  {
    FilterAppend(p + num, s, keep);
    FilterAppend(p, num, keep);
    FilterAll(p, keep);
    FilterAll(num, keep);
    FilterAll(s, keep);
    assert [] + num + [] == num;
  }

  /** Filtering a three-part text by a class that keeps all of the outer
      parts and none of the middle part gives the outer parts. */
  lemma FilterOuter(p: string, num: string, s: string, keep: char -> bool)
    requires AllSatisfy(p, keep)
    requires forall i :: 0 <= i < |num| ==> !keep(num[i])
    requires AllSatisfy(s, keep)
    ensures Filter(p + num + s, keep) == p + s
  {
    FilterAppend(p, num, keep);
    FilterAll(p, keep);
    FilterAll(num, keep);
    assert Filter(p + num, keep) == p by {
      assert p + [] == p;
    }
    FilterAppend(p + num, s, keep);
    FilterAll(s, keep);
  }

  /** The magnitude and the suffix of a three-part text whose outer parts
      hold no digit or point and whose middle part is a magnitude. */
  lemma SplitAround(p: string, num: string, s: string)
    requires AllSatisfy(p, IsOtherChar) && IsMagnitudeText(num) && AllSatisfy(s, IsOtherChar)
    ensures Magnitude(p + num + s) == num
    ensures Filter(p + num + s, IsOtherChar) == p + s
  {
    FilterMiddle(p, num, s, IsMagnitudeChar);
    FilterOuter(p, num, s, IsOtherChar);
  }

  /** No point occurs in a three-part text whose parts hold none. */
  lemma NoPointAround(p: string, num: string, s: string)
    requires '.' !in p && '.' !in num && '.' !in s
    ensures '.' !in p + num + s
  {
    var t := p + num + s;
    forall i | 0 <= i < |t| ensures t[i] != '.' {
      if i < |p| {
        assert t[i] == p[i];
      } else if i < |p| + |num| {
        assert t[i] == num[i - |p|];
      } else {
        assert t[i] == s[i - |p| - |num|];
      }
    }
  }

  /** The final text of a text without a point whose magnitude is the
      numeral of `n` and whose suffix is `s`. */
  lemma PlainFinalText(t: string, n: nat, s: string)
    requires Magnitude(t) == DecimalText(n) && Suffix(t) == s
    requires '.' !in t
    requires '%' !in s && 'K' !in s
    ensures FinalText(t) == DecimalText(n) + s
  {
    IntegerTextIsMagnitude(n);
    ParseIntegerText(n);
    RoundInteger(n);
    FinalTextOfParts(t, DecimalText(n), s, n as real);
  }

  /** Whitespace is never a digit or a point. */
  lemma SpacesAreOther(sp: string)
    requires AllSatisfy(sp, IsSpace)
    ensures AllSatisfy(sp, IsOtherChar)
  {
  }

  /** How a number followed by whitespace and a suffix splits: the
      whitespace is part of neither the magnitude nor the suffix. */
  lemma SplitSpacedUnit(num: string, sp: string, s: string)
    requires IsMagnitudeText(num)
    requires AllSatisfy(sp, IsSpace)
    requires IsSuffixText(s)
    ensures Magnitude(num + (sp + s)) == num
    ensures Suffix(num + (sp + s)) == s
  {
    SpacesAreOther(sp);
    assert AllSatisfy(sp + s, IsOtherChar);
    MagnitudeOfNumberThenOthers(num, sp + s);
    OthersOfNumberThenOthers(num, sp + s);
    TrimStartOfSpaces(sp, s);
  }

  /** Neither whitespace nor a suffix holds a point. */
  lemma NoPointInSpacedUnit(n: nat, sp: string, s: string)
    requires AllSatisfy(sp, IsSpace)
    requires IsSuffixText(s)
    ensures '.' !in DecimalText(n) + (sp + s)
  {
    IntegerTextIsMagnitude(n);
    SpacesAreOther(sp);
    NoPointAround(DecimalText(n), sp, s);
    assert DecimalText(n) + sp + s == DecimalText(n) + (sp + s);
  }

  /** Whitespace between the number and its unit is dropped: "7 days" ends
      as "7days". */
  lemma DropsSpaceBeforeUnit(n: nat, sp: string, s: string)
    requires AllSatisfy(sp, IsSpace)
    requires IsSuffixText(s) && '%' !in s && 'K' !in s
    ensures FinalText(DecimalText(n) + (sp + s)) == DecimalText(n) + s
  {
    IntegerTextIsMagnitude(n);
    SplitSpacedUnit(DecimalText(n), sp, s);
    NoPointInSpacedUnit(n, sp, s);
    PlainFinalText(DecimalText(n) + (sp + s), n, s);
  }

  /** Characters in front of the number move behind it: "$5M" ends as "5$M". */
  lemma MovesPrefixBehindNumber(p: string, n: nat, s: string)
    requires IsSuffixText(p + s) && '%' !in p + s && 'K' !in p + s
    ensures FinalText(p + DecimalText(n) + s) == DecimalText(n) + (p + s)
  {
    var num := DecimalText(n);
    IntegerTextIsMagnitude(n);
    assert AllSatisfy(p, IsOtherChar) && AllSatisfy(s, IsOtherChar) by {
      forall i | 0 <= i < |p| ensures IsOtherChar(p[i]) {
        assert (p + s)[i] == p[i];
      }
      forall i | 0 <= i < |s| ensures IsOtherChar(s[i]) {
        assert (p + s)[|p| + i] == s[i];
      }
    }
    SplitAround(p, num, s);
    assert '.' !in p && '.' !in s by {
      assert forall c :: c in p ==> c in p + s;
      assert forall c :: c in s ==> c in p + s;
    }
    NoPointAround(p, num, s);
    PlainFinalText(p + num + s, n, p + s);
  }

  /** Whitespace in front of the number is dropped, together with the
      whitespace before the unit: after the digits go, the two runs form one
      leading run, which the trim removes. " 7 M" ends as "7M". */
  lemma DropsLeadingSpace(p: string, n: nat, sp: string, u: string)
    requires AllSatisfy(p, IsSpace) && AllSatisfy(sp, IsSpace)
    requires IsSuffixText(u) && '%' !in u && 'K' !in u
    ensures FinalText(p + DecimalText(n) + (sp + u)) == DecimalText(n) + u
  {
    var num := DecimalText(n);
    var t := p + num + (sp + u);
    IntegerTextIsMagnitude(n);
    SpacesAreOther(p);
    SpacedUnitIsOther(sp, u);
    SplitAround(p, num, sp + u);
    LeadingSpacesTrimmed(p, sp, u);
    NoPointInSpaces(p);
    NoPointInSpacedUnit(n, sp, u);
    NoPointAround(p, num, sp + u);
    PlainFinalText(t, n, u);
  }

  /** Whitespace followed by a suffix holds no digit or point. */
  lemma SpacedUnitIsOther(sp: string, u: string)
    requires AllSatisfy(sp, IsSpace) && IsSuffixText(u)
    ensures AllSatisfy(sp + u, IsOtherChar)
  {
    SpacesAreOther(sp);
    forall i | 0 <= i < |sp + u| ensures IsOtherChar((sp + u)[i]) {
      if i < |sp| {
        assert (sp + u)[i] == sp[i];
      } else {
        assert (sp + u)[i] == u[i - |sp|];
      }
    }
  }

  /** Two runs of whitespace in front of a suffix are trimmed together. */
  lemma LeadingSpacesTrimmed(p: string, sp: string, u: string)
    requires AllSatisfy(p, IsSpace) && AllSatisfy(sp, IsSpace) && IsSuffixText(u)
    ensures TrimStart(p + (sp + u)) == u
  {
    assert p + (sp + u) == (p + sp) + u;
    forall i | 0 <= i < |p + sp| ensures IsSpace((p + sp)[i]) {
      if i < |p| {
        assert (p + sp)[i] == p[i];
      } else {
        assert (p + sp)[i] == sp[i - |p|];
      }
    }
    TrimStartOfSpaces(p + sp, u);
  }

  /** Whitespace holds no point. */
  lemma NoPointInSpaces(p: string)
    requires AllSatisfy(p, IsSpace)
    ensures '.' !in p
  {
    SpacesAreOther(p);
  }

  /** Under the `%` rule everything else in the unit is dropped: "50% off"
      ends as "50%". */
  lemma PercentDropsRestOfUnit(n: nat, rest: string)
    requires AllSatisfy(rest, IsOtherChar)
    ensures FinalText(DecimalText(n) + ("%" + rest)) == DecimalText(n) + "%"
  {
    var num := DecimalText(n);
    var s := "%" + rest;
    forall i | 0 <= i < |s| ensures IsOtherChar(s[i]) {
      if i > 0 {
        assert s[i] == rest[i - 1];
      }
    }
    IntegerTextIsMagnitude(n);
    ParseIntegerText(n);
    RenderedParsesBack(num, s, n as real);
    RoundInteger(n);
    assert s[0] == '%';
  }

  /** The digits and points of separate numbers merge into one magnitude:
      "1-2 years" reads as the number 12. */
  lemma MergesSeparateNumbers(a: nat, b: nat)
    ensures Magnitude(DecimalText(a) + "-" + DecimalText(b)) == DecimalText(a) + DecimalText(b)
  {
    var x, y := DecimalText(a), DecimalText(b);
    IntegerTextIsMagnitude(a);
    IntegerTextIsMagnitude(b);
    FilterAppend(x + "-", y, IsMagnitudeChar);
    FilterAppend(x, "-", IsMagnitudeChar);
    FilterAll(x, IsMagnitudeChar);
    FilterAll("-", IsMagnitudeChar);
    FilterAll(y, IsMagnitudeChar);
  }

  /** A decimal with a trailing zero is re-rounded to one place: "4.80"
      ends as "4.8". */
  lemma RoundsTrailingZero(k: nat)
    ensures FinalText(TenthsText(k) + "0") == TenthsText(k)
  {
    var num := TenthsText(k) + "0";
    var v := k as real / 10.0;
    ParseTenthsZeroText(k);
    assert IsSuffixText("");
    RenderedParsesBack(num, "", v);
    assert num + "" == num;
    assert num[|DecimalText(k / 10)|] == '.';
    ToFixed1OfTenths(k);
    assert TenthsText(k) + "" == TenthsText(k);
  }
}

=== FILE: numbers.dfy ===
/** The JavaScript number primitives the metric animator uses, over exact
    reals: `parseFloat` on a magnitude string, `Math.round`, the conversion
    of an integral number to text, and `Number.prototype.toFixed(1)`. */
module Numbers {
  import opened Text
  import opened Options

  /** A string made only of digits and decimal points, as the magnitude
      extracted from a metric's text always is. */
  predicate IsMagnitudeText(s: string) {
    AllSatisfy(s, IsMagnitudeChar)
  }

  /** The length of the longest run of digits at the start of `s`. */
  function LeadingDigits(s: string): (k: nat)
    ensures k <= |s|
    ensures AllSatisfy(s[..k], IsDigit)
    ensures k < |s| ==> !IsDigit(s[k])
    decreases |s|
  {
    if |s| > 0 && IsDigit(s[0]) then
      var k := 1 + LeadingDigits(s[1..]);
      assert s[..k] == [s[0]] + s[1..][..k - 1];
      k
    else
      0
  }

  /** `s` starts with an unsigned decimal literal: a digit, or a point
      followed by a digit. */
  predicate StartsNumeric(s: string) {
    || (|s| > 0 && IsDigit(s[0]))
    || (|s| > 1 && s[0] == '.' && IsDigit(s[1]))
  }

  /** A quotient of a non-negative number by a larger one lies in [0, 1). */
  lemma QuotientBelowOne(n: real, p: real)
    requires 0.0 <= n < p
    ensures 0.0 <= n / p < 1.0
  {
    var v := n / p;
    assert v * p == n;
    assert (1.0 - v) * p == p - n;
  }

  /** The value of the digits `f` written after a decimal point. */
  function FractionValue(f: string): (v: real)
    requires AllSatisfy(f, IsDigit)
    ensures 0.0 <= v < 1.0
  {
    QuotientBelowOne(DigitsValue(f) as real, Pow10(|f|) as real);
    DigitsValue(f) as real / Pow10(|f|) as real
  }

  /** `parseFloat(s)` for a string of digits and points: the value of the
      longest leading `digits[.[digits]]` or `.digits` literal, and `None`
      (NaN) when there is none. A second point ends the literal. */
  function ParseFloat(s: string): (r: Option<real>)
    requires IsMagnitudeText(s)
    ensures r.Some? <==> StartsNumeric(s)
    ensures r.Some? ==>
      var whole := DigitsValue(s[..LeadingDigits(s)]) as real;
      whole <= r.value < whole + 1.0
  {
    var i := LeadingDigits(s);
    var whole := DigitsValue(s[..i]) as real;
    if i < |s| && s[i] == '.' then
      var f := s[i + 1..];
      var j := LeadingDigits(f);
      if i == 0 && j == 0 then None else Some(whole + FractionValue(f[..j]))
    else if i == 0 then
      None
    else
      Some(whole)
  }

  /** `Math.round(x)`: the nearest integer, a tie going toward +infinity. */
  function Round(x: real): (n: int)
    ensures n as real - 0.5 <= x < n as real + 0.5
  {
    (x + 0.5).Floor
  }

  /** An integer is its own rounding. */
  lemma RoundInteger(n: int)
    ensures Round(n as real) == n
  {
  }

  /** The text JavaScript prints for an integral number (below 10^21 in
      magnitude): a minus sign for negatives, never for zero. */
  function IntegerText(n: int): string {
    if n < 0 then "-" + DecimalText(-n) else DecimalText(n)
  }

  /** The one-decimal text of `k` tenths. */
  function TenthsText(k: nat): string {
    DecimalText(k / 10) + "." + [DigitChar(k % 10)]
  }

  /** `x.toFixed(1)`: the sign, then the magnitude rounded to the nearest
      tenth with a tie going away from zero, with exactly one digit after
      the point. */
  function ToFixed1(x: real): string {
    if x < 0.0 then "-" + TenthsText(Round(-x * 10.0)) else TenthsText(Round(x * 10.0))
  }

  /** The leading digit run of a numeral followed by a non-digit is the numeral. */
  lemma {:induction false} LeadingDigitsOfNumeral(a: string, rest: string)
    requires AllSatisfy(a, IsDigit)
    requires |rest| == 0 || !IsDigit(rest[0])
    ensures LeadingDigits(a + rest) == |a|
    decreases |a|
  {
    if |a| == 0 {
      assert a + rest == rest;
    } else {
      assert (a + rest)[1..] == a[1..] + rest;
      LeadingDigitsOfNumeral(a[1..], rest);
    }
  }

  /** Reading back the text of a non-negative integer gives the integer. */
  lemma ParseIntegerText(n: nat)
    ensures IsMagnitudeText(IntegerText(n))
    ensures ParseFloat(IntegerText(n)) == Some(n as real)
  {
    var s := DecimalText(n);
    assert AllSatisfy(s, IsMagnitudeChar);
    LeadingDigitsOfNumeral(s, []);
    assert s + [] == s;
    assert s[..|s|] == s;
  }

  /** A digit run, a point and a digit run form a magnitude. */
  lemma PointTextIsMagnitude(a: string, f: string)
    requires AllSatisfy(a, IsDigit) && AllSatisfy(f, IsDigit)
    ensures IsMagnitudeText(a + "." + f)
  {
    var s := a + "." + f;
    forall i | 0 <= i < |s| ensures IsMagnitudeChar(s[i]) {
      if i < |a| {
        assert s[i] == a[i];
      } else if i > |a| {
        assert s[i] == f[i - |a| - 1];
      }
    }
  }

  /** A numeral, a point and a digit run read back as the numeral's value
      plus the fraction the digits denote. */
  lemma ParseDecimalText(a: string, f: string)
    requires |a| > 0 && AllSatisfy(a, IsDigit) && AllSatisfy(f, IsDigit)
    ensures IsMagnitudeText(a + "." + f)
    ensures ParseFloat(a + "." + f) == Some(DigitsValue(a) as real + FractionValue(f))
  {
    ParseFloatOfLiteral(a, f, "");
    assert a + "." + f + "" == a + "." + f;
  }

  /** A digit run is its own leading digit run. */
  lemma LeadingDigitsOfDigits(f: string)
    requires AllSatisfy(f, IsDigit)
    ensures LeadingDigits(f) == |f| && f[..|f|] == f
  {
    LeadingDigitsOfNumeral(f, []);
    assert f + [] == f;
  }

  /** A digit run on its own reads as its value. */
  lemma ParseFloatOfDigits(a: string)
    requires |a| > 0 && AllSatisfy(a, IsDigit)
    ensures IsMagnitudeText(a)
    ensures ParseFloat(a) == Some(DigitsValue(a) as real)
  {
    LeadingDigitsOfDigits(a);
  }

  /** A literal `a.f`, where either digit run may be empty but not both,
      reads as the value of `a` plus the fraction `f` denotes, whatever
      digits and points follow a second point: ".5" is one half and
      "1.2.3" is 1.2. */
  lemma ParseFloatOfLiteral(a: string, f: string, rest: string)
    requires AllSatisfy(a, IsDigit) && AllSatisfy(f, IsDigit) && |a| + |f| > 0
    requires IsMagnitudeText(rest) && (|rest| == 0 || rest[0] == '.')
    ensures IsMagnitudeText(a + "." + f + rest)
    ensures ParseFloat(a + "." + f + rest) == Some(DigitsValue(a) as real + FractionValue(f))
  {
    var s := a + "." + f + rest;
    LiteralIsMagnitude(a, f, rest);
    LiteralSlices(a, f, rest);
    LeadingDigitsOfNumeral(a, "." + f + rest);
    LeadingDigitsOfNumeral(f, rest);
    ParseLiteralAt(s, a, f, f + rest);
  }

  /** `parseFloat` of a text whose leading digit run `a` is followed by a
      point and then by `tail`, whose leading digit run is `f`. */
  lemma ParseLiteralAt(s: string, a: string, f: string, tail: string)
    requires IsMagnitudeText(s)
    requires AllSatisfy(a, IsDigit) && AllSatisfy(f, IsDigit) && |a| + |f| > 0
    requires LeadingDigits(s) == |a| && |a| < |s| && s[|a|] == '.' && s[..|a|] == a
    requires s[|a| + 1..] == tail && LeadingDigits(tail) == |f| && tail[..|f|] == f
    ensures ParseFloat(s) == Some(DigitsValue(a) as real + FractionValue(f))
  {
  }

  /** ".5" reads as one half. */
  lemma ParseFloatLeadingPoint()
    ensures ParseFloat(".5") == Some(0.5)
  {
    ParseFloatOfLiteral("", "5", "");
    assert "" + "." + "5" + "" == ".5";
    FractionOfDigit('5');
  }

  /** In "1.2.3" the second point ends the number. */
  lemma ParseFloatSecondPoint()
    ensures ParseFloat("1.2.3") == Some(1.2)
  {
    ParseFloatOfLiteral("1", "2", ".3");
    assert "1" + "." + "2" + ".3" == "1.2.3";
    FractionOfDigit('2');
    assert DigitsValue("1") == 1 by {
      assert "1"[..0] == [];
    }
  }

  /** The parts of a literal followed by more text. */
  lemma LiteralSlices(a: string, f: string, rest: string)
    ensures var s := a + "." + f + rest;
      && s == a + ("." + f + rest)
      && |a| < |s| && s[|a|] == '.' && s[..|a|] == a
      && s[|a| + 1..] == f + rest && (f + rest)[..|f|] == f
  {
  }

  /** A literal followed by digits and points is a magnitude. */
  lemma LiteralIsMagnitude(a: string, f: string, rest: string)
    requires AllSatisfy(a, IsDigit) && AllSatisfy(f, IsDigit) && IsMagnitudeText(rest)
    ensures IsMagnitudeText(a + "." + f + rest)
  {
    PointTextIsMagnitude(a, f);
    var t := a + "." + f;
    forall i | 0 <= i < |t + rest| ensures IsMagnitudeChar((t + rest)[i]) {
      if i < |t| {
        assert (t + rest)[i] == t[i];
      } else {
        assert (t + rest)[i] == rest[i - |t|];
      }
    }
  }

  /** One digit after the point is that many tenths. */
  lemma FractionOfDigit(c: char)
    requires IsDigit(c)
    ensures FractionValue([c]) == DigitValue(c) as real / 10.0
  {
    assert [c][..0] == [];
    assert DigitsValue([c]) == DigitValue(c);
  }

  /** A digit followed by a zero after the point is still that many tenths. */
  lemma FractionOfDigitZero(c: char)
    requires IsDigit(c)
    ensures FractionValue([c, '0']) == DigitValue(c) as real / 10.0
  {
    var f := [c, '0'];
    assert f[..1] == [c];
    assert [c][..0] == [];
    assert DigitsValue(f) == DigitValue(c) * 10;
    assert Pow10(2) == 100;
    var d := DigitValue(c) as real;
    assert FractionValue(f) == (d * 10.0) / 100.0;
  }

  /** The whole tenths and the tenths digit together make `k / 10`. */
  lemma TenthsParts(k: nat)
    ensures (k / 10) as real + (k % 10) as real / 10.0 == k as real / 10.0
  {
    assert k == 10 * (k / 10) + k % 10;
  }

  /** Reading back the one-decimal text of `k` tenths gives `k / 10`. */
  lemma ParseTenthsText(k: nat)
    ensures IsMagnitudeText(TenthsText(k))
    ensures ParseFloat(TenthsText(k)) == Some(k as real / 10.0)
  {
    var c := DigitChar(k % 10);
    ParseDecimalText(DecimalText(k / 10), [c]);
    FractionOfDigit(c);
    TenthsParts(k);
  }

  /** A trailing zero after the tenths digit does not change the value read. */
  lemma ParseTenthsZeroText(k: nat)
    ensures IsMagnitudeText(TenthsText(k) + "0")
    ensures ParseFloat(TenthsText(k) + "0") == Some(k as real / 10.0)
  {
    var a := DecimalText(k / 10);
    var c := DigitChar(k % 10);
    assert TenthsText(k) + "0" == a + "." + [c, '0'];
    ParseDecimalText(a, [c, '0']);
    FractionOfDigitZero(c);
    TenthsParts(k);
  }

  /** A number that is already a whole count of tenths prints as exactly
      those tenths. */
  lemma ToFixed1OfTenths(k: nat)
    ensures ToFixed1(k as real / 10.0) == TenthsText(k)
  {
    assert (k as real / 10.0) * 10.0 == k as real;
    RoundInteger(k);
  }

  /** `toFixed(1)` of a non-negative number reads back as a value within a
      half tenth of it, ties rounded up. */
  lemma ToFixed1Nearest(x: real)
    requires x >= 0.0
    ensures IsMagnitudeText(ToFixed1(x))
    ensures ParseFloat(ToFixed1(x)).Some?
    ensures var v := ParseFloat(ToFixed1(x)).value; v - 0.05 <= x < v + 0.05
  {
    var k := Round(x * 10.0);
    ParseTenthsText(k);
  }
}

=== FILE: options.dfy ===
/** An optional value: `None` stands for JavaScript's NaN, for "no handler"
    and for "nothing shown". */
module Options {
  datatype Option<T> = None | Some(value: T)
}

=== FILE: priority.dfy ===
/** Priority-ordered dispatch: an `if … else if …` chain picks the first rule
    in a fixed order whose condition holds. Both the metric formats and the
    contact rows of app.js are chains of this kind. */
module Priority {
  import opened Options

  /** The index of the first rule in `rules` that `applies`, or `None` when
      no rule applies. */
  function FirstMatch<T>(rules: seq<T>, applies: T -> bool): (r: Option<nat>)
    ensures r.Some? ==> r.value < |rules| && applies(rules[r.value])
    ensures r.Some? ==> forall j :: 0 <= j < r.value ==> !applies(rules[j])
    ensures r.None? <==> forall j :: 0 <= j < |rules| ==> !applies(rules[j])
    decreases |rules|
  {
    if |rules| == 0 then None
    else if applies(rules[0]) then Some(0)
    else
      match FirstMatch(rules[1..], applies)
      case None => None
      case Some(i) => Some(i + 1)
  }

  /** The first match is the only applicable rule with no applicable rule
      before it. */
  lemma FirstMatchUnique<T>(rules: seq<T>, applies: T -> bool, i: nat)
    requires i < |rules| && applies(rules[i])
    requires forall j :: 0 <= j < i ==> !applies(rules[j])
    ensures FirstMatch(rules, applies) == Some(i)
  {
    var r := FirstMatch(rules, applies);
    assert r.Some?;
    assert !(r.value < i) && !(i < r.value);
  }
}

=== FILE: reveal.dfy ===
/** The one-shot observation pattern of the three IntersectionObserver
    callbacks in app.js (sections, metrics and KPI highlights): every entry
    that reports its target as intersecting runs the target's effect and
    unobserves the target. Targets are element identities, modelled as
    numbers; what the platform reports is the input. */
module Reveal {

  /** One IntersectionObserverEntry: the element it is about and whether the
      element is intersecting the viewport. */
  datatype Entry = Entry(target: nat, isIntersecting: bool)

  /** The observer's targets and, in order, the targets whose effect has run. */
  datatype Observer = Observer(observed: set<nat>, fired: seq<nat>)

  /** `observer.observe(target)` for each of `targets`, as the set-up loops do.
      Observing targets whose effect has not run keeps the one-shot
      invariant. */
  function ObserveAll(o: Observer, targets: seq<nat>): (r: Observer)
    ensures OneShot(o) && (forall i :: 0 <= i < |o.fired| ==> o.fired[i] !in targets) ==> OneShot(r)
  {
    Observer(o.observed + (set t | t in targets), o.fired)
  }

  /** The body of `entries.forEach` for one entry: an intersecting entry runs
      the effect of its target and unobserves the target. The callback does
      not ask whether the target is still observed. */
  function Handle(o: Observer, e: Entry): Observer {
    if e.isIntersecting then Observer(o.observed - {e.target}, o.fired + [e.target])
    else o
  }

  /** The targets of the intersecting entries of a batch, in order. */
  function Intersecting(entries: seq<Entry>): (ts: seq<nat>)
    ensures |ts| <= |entries|
    ensures forall i :: 0 <= i < |entries| && entries[i].isIntersecting ==> entries[i].target in ts
    ensures forall t :: t in ts ==> exists i :: 0 <= i < |entries| && entries[i].isIntersecting && entries[i].target == t
  {
    if |entries| == 0 then []
    else
      var rest := Intersecting(entries[1..]);
      assert forall i :: 0 < i < |entries| ==> entries[i] == entries[1..][i - 1];
      if entries[0].isIntersecting then [entries[0].target] + rest else rest
  }

  /** One entry contributes its target exactly when it is intersecting. */
  lemma IntersectingSingle(e: Entry)
    ensures Intersecting([e]) == if e.isIntersecting then [e.target] else []
  {
    assert [e][1..] == [];
  }

  /** The targets of two consecutive runs of entries are those of the first
      followed by those of the second: entries are handled in the order
      reported, each as often as it occurs. */
  lemma {:induction false} IntersectingAppend(a: seq<Entry>, b: seq<Entry>)
    ensures Intersecting(a + b) == Intersecting(a) + Intersecting(b)
    decreases |a|
  {
    if |a| == 0 {
      assert a + b == b;
    } else {
      assert (a + b)[0] == a[0];
      assert (a + b)[1..] == a[1..] + b;
      IntersectingAppend(a[1..], b);
    }
  }

  /** The callback: `entries.forEach(…)` over one batch. */
  function Callback(o: Observer, entries: seq<Entry>): (r: Observer)
    ensures r.fired == o.fired + Intersecting(entries)
    ensures r.observed == o.observed - (set t | t in Intersecting(entries))
    decreases |entries|
  {
    if |entries| == 0 then o
    else
      var r := Callback(Handle(o, entries[0]), entries[1..]);
      assert entries[0].isIntersecting ==>
        (set t | t in Intersecting(entries)) == {entries[0].target} + (set t | t in Intersecting(entries[1..]));
      r
  }

  /** A sequence without repeated elements. */
  predicate NoDuplicates(s: seq<nat>) {
    forall i, j :: 0 <= i < j < |s| ==> s[i] != s[j]
  }

  /** The one-shot invariant: no effect has run twice, and no target whose
      effect has run is still observed. */
  predicate OneShot(o: Observer) {
    NoDuplicates(o.fired) && forall i :: 0 <= i < |o.fired| ==> o.fired[i] !in o.observed
  }

  /** Every intersecting entry of the batch is about an observed target. */
  predicate ObservedOnly(o: Observer, entries: seq<Entry>) {
    forall i :: 0 <= i < |entries| && entries[i].isIntersecting ==> entries[i].target in o.observed
  }

  /** What the platform is assumed to deliver in one batch: entries only for
      observed targets, and at most one intersecting entry per target. */
  predicate Reported(o: Observer, entries: seq<Entry>) {
    && ObservedOnly(o, entries)
    && (forall i, j :: 0 <= i < j < |entries| && entries[i].isIntersecting && entries[j].isIntersecting
          ==> entries[i].target != entries[j].target)
  }

  /** Handling one batch the platform reported keeps the one-shot invariant. */
  lemma {:induction false} CallbackKeepsOneShot(o: Observer, entries: seq<Entry>)
    requires OneShot(o)
    requires Reported(o, entries)
    ensures OneShot(Callback(o, entries))
    decreases |entries|
  {
    if |entries| > 0 {
      var e := entries[0];
      var o' := Handle(o, e);
      assert OneShot(o') by {
        if e.isIntersecting {
          assert e.target in o.observed;
          forall i, j | 0 <= i < j < |o'.fired| ensures o'.fired[i] != o'.fired[j] {
            if j == |o.fired| {
              assert o'.fired[i] == o.fired[i];
            }
          }
        }
      }
      assert Reported(o', entries[1..]) by {
        forall i | 0 <= i < |entries| - 1 && entries[1..][i].isIntersecting
          ensures entries[1..][i].target in o'.observed
        {
          assert entries[1..][i] == entries[i + 1];
          if e.isIntersecting {
            assert entries[0].target != entries[i + 1].target;
          }
        }
        forall i, j | 0 <= i < j < |entries| - 1 && entries[1..][i].isIntersecting && entries[1..][j].isIntersecting
          ensures entries[1..][i].target != entries[1..][j].target
        {
          assert entries[1..][i] == entries[i + 1] && entries[1..][j] == entries[j + 1];
        }
      }
      CallbackKeepsOneShot(o', entries[1..]);
      assert Callback(o, entries) == Callback(o', entries[1..]);
    }
  }

  /** The observer after a series of batches. */
  function Run(o: Observer, batches: seq<seq<Entry>>): Observer
    decreases |batches|
  {
    if |batches| == 0 then o else Run(Callback(o, batches[0]), batches[1..])
  }

  /** Every batch of the series was reported by the platform in the state
      the observer was in when it arrived. */
  predicate ReportedRun(o: Observer, batches: seq<seq<Entry>>)
    decreases |batches|
  {
    |batches| == 0 || (Reported(o, batches[0]) && ReportedRun(Callback(o, batches[0]), batches[1..]))
  }

  /** Every batch of the series reports intersecting entries only for
      targets observed when it arrives. */
  predicate ObservedOnlyRun(o: Observer, batches: seq<seq<Entry>>)
    decreases |batches|
  {
    |batches| == 0 || (ObservedOnly(o, batches[0]) && ObservedOnlyRun(Callback(o, batches[0]), batches[1..]))
  }

  /** Each target's effect runs at most once over any series of batches the
      platform reports, starting from freshly observed targets. */
  lemma {:induction false} AtMostOnce(o: Observer, batches: seq<seq<Entry>>)
    requires OneShot(o)
    requires ReportedRun(o, batches)
    ensures OneShot(Run(o, batches))
    ensures NoDuplicates(Run(o, batches).fired)
    decreases |batches|
  {
    if |batches| > 0 {
      CallbackKeepsOneShot(o, batches[0]);
      AtMostOnce(Callback(o, batches[0]), batches[1..]);
    }
  }

  /** Over a series whose batches report only observed targets (repeated
      entries allowed) the record of effects only grows, and every
      effect that runs belongs to a target that was observed at the start. */
  lemma {:induction false} RunOnlyFiresObserved(o: Observer, batches: seq<seq<Entry>>)
    requires ObservedOnlyRun(o, batches)
    ensures |o.fired| <= |Run(o, batches).fired|
    ensures Run(o, batches).fired[..|o.fired|] == o.fired
    ensures forall k :: |o.fired| <= k < |Run(o, batches).fired| ==> Run(o, batches).fired[k] in o.observed
    ensures Run(o, batches).observed <= o.observed
    decreases |batches|
  {
    if |batches| > 0 {
      var o1 := Callback(o, batches[0]);
      var ts := Intersecting(batches[0]);
      assert forall t :: t in ts ==> t in o.observed;
      assert forall k :: |o.fired| <= k < |o1.fired| ==> o1.fired[k] == ts[k - |o.fired|];
      RunOnlyFiresObserved(o1, batches[1..]);
      var r := Run(o, batches);
      assert r == Run(o1, batches[1..]);
      assert r.fired[..|o1.fired|] == o1.fired;
      assert r.fired[..|o.fired|] == o1.fired[..|o.fired|];
      forall k | |o.fired| <= k < |r.fired| ensures r.fired[k] in o.observed {
        if k < |o1.fired| {
          assert r.fired[k] == o1.fired[k];
        }
      }
    }
  }

  /** After the set-up loop nothing has fired and the invariant holds. */
  lemma SetUpIsOneShot(targets: seq<nat>)
    ensures OneShot(ObserveAll(Observer({}, []), targets))
  {
  }

  /** An entry that is not intersecting changes nothing. */
  lemma NotIntersectingIgnored(o: Observer, target: nat)
    ensures Callback(o, [Entry(target, false)]) == o
  {
    assert Intersecting([Entry(target, false)]) == [];
  }

  /** The callback does not check whether the target is still observed: a
      batch with two intersecting entries for one target runs its effect
      twice, so the one-shot property rests on what the platform reports. */
  lemma RepeatedEntryFiresTwice(o: Observer, target: nat)
    ensures Callback(o, [Entry(target, true), Entry(target, true)]).fired == o.fired + [target, target]
  {
    var es := [Entry(target, true), Entry(target, true)];
    assert es[1..] == [Entry(target, true)];
    assert es[1..][1..] == [];
  }
}

=== FILE: stagger.dfy ===
/** The timers the observer callbacks of app.js start when their effect
    runs: a revealed section shows its title after 200 ms and its child
    elements one after another, 100 ms apart starting at 100 ms; a KPI
    highlight pulses after 500 ms. Timers with equal delays run in the order
    they were started. */
module Stagger {

  /** What a timer does when it runs. */
  datatype Action = ShowTitle | ShowChild(index: nat) | Pulse

  /** A `setTimeout(action, delay)` call. */
  datatype Timer = Timer(delay: nat, action: Action)

  const TitleDelay: nat := 200
  const PulseDelay: nat := 500

  /** The delay of the child at position `index` of a section: `100 + index * 100`. */
  function ChildDelay(index: nat): nat {
    100 + index * 100
  }

  /** Later children wait longer, by 100 ms per position. */
  lemma ChildDelayIncreasing(i: nat, j: nat)
    requires i < j
    ensures ChildDelay(i) < ChildDelay(j)
    ensures ChildDelay(j) - ChildDelay(i) == 100 * (j - i)
  {
  }

  /** The timers `childElements.forEach` starts for `n` children, in the
      order they are started. */
  function ChildTimers(n: nat): (ts: seq<Timer>)
    ensures |ts| == n
    ensures forall i :: 0 <= i < n ==> ts[i].action == ShowChild(i)
    ensures forall i :: 0 <= i < n ==> ts[i].delay == 100 * (i + 1)
  {
    if n == 0 then []
    else ChildTimers(n - 1) + [Timer(ChildDelay(n - 1), ShowChild(n - 1))]
  }

  /** The timers a section's reveal starts, in the order they are started:
      the title timer, when the section has a title, then the child timers.
      Together the clauses account for every timer. */
  function SectionTimers(hasTitle: bool, children: nat): (ts: seq<Timer>)
    ensures |ts| == children + (if hasTitle then 1 else 0)
    ensures hasTitle ==> ts[0] == Timer(TitleDelay, ShowTitle)
    ensures forall i :: 0 <= i < children ==>
      ChildPosition(hasTitle, i) < |ts| && ts[ChildPosition(hasTitle, i)] == Timer(ChildDelay(i), ShowChild(i))
  {
    (if hasTitle then [Timer(TitleDelay, ShowTitle)] else []) + ChildTimers(children)
  }

  /** The timers a KPI highlight starts. */
  function KpiTimers(): seq<Timer> {
    [Timer(PulseDelay, Pulse)]
  }

  /** Timer `i` of `ts` runs before timer `j`: it is due earlier, or due at
      the same time and started earlier. */
  predicate RunsBefore(ts: seq<Timer>, i: nat, j: nat)
    requires i < |ts| && j < |ts|
  {
    ts[i].delay < ts[j].delay || (ts[i].delay == ts[j].delay && i < j)
  }

  /** The position of the timer for child `index` among a section's timers. */
  function ChildPosition(hasTitle: bool, index: nat): nat {
    index + (if hasTitle then 1 else 0)
  }

  /** Each child of a section gets exactly one timer, at `ChildPosition`. */
  lemma EachChildOnce(hasTitle: bool, children: nat, index: nat)
    requires index < children
    ensures var ts := SectionTimers(hasTitle, children);
      && ChildPosition(hasTitle, index) < |ts|
      && ts[ChildPosition(hasTitle, index)] == Timer(ChildDelay(index), ShowChild(index))
      && forall k :: 0 <= k < |ts| && ts[k].action == ShowChild(index) ==> k == ChildPosition(hasTitle, index)
  {
    var ts := SectionTimers(hasTitle, children);
    var off := if hasTitle then 1 else 0;
    forall k | 0 <= k < |ts| && ts[k].action == ShowChild(index) ensures k == ChildPosition(hasTitle, index) {
      if !(hasTitle && k == 0) {
        assert ChildPosition(hasTitle, k - off) == k;
      }
    }
  }

  /** The children of a revealed section appear in document order. */
  lemma ChildrenInOrder(hasTitle: bool, children: nat, a: nat, b: nat)
    requires a < b < children
    ensures RunsBefore(SectionTimers(hasTitle, children), ChildPosition(hasTitle, a), ChildPosition(hasTitle, b))
  {
    EachChildOnce(hasTitle, children, a);
    EachChildOnce(hasTitle, children, b);
    ChildDelayIncreasing(a, b);
  }

  /** The title's timer is due together with the second child's, and was
      started first: the title appears after the first child and before the
      second. */
  lemma TitleBetweenFirstChildren(children: nat)
    requires children >= 2
    ensures var ts := SectionTimers(true, children);
      && ts[0].action == ShowTitle
      && RunsBefore(ts, ChildPosition(true, 0), 0)
      && RunsBefore(ts, 0, ChildPosition(true, 1))
  {
    EachChildOnce(true, children, 0);
    EachChildOnce(true, children, 1);
  }

  /** The last of a section's timers is due 100 ms per child after the
      reveal, or at the title's 200 ms when that is later. */
  lemma SectionDoneBy(hasTitle: bool, children: nat)
    ensures var ts := SectionTimers(hasTitle, children);
      forall k :: 0 <= k < |ts| ==> ts[k].delay <= (if hasTitle && children < 2 then TitleDelay else 100 * children)
  {
    var ts := SectionTimers(hasTitle, children);
    var off := if hasTitle then 1 else 0;
    forall k | 0 <= k < |ts|
      ensures ts[k].delay <= (if hasTitle && children < 2 then TitleDelay else 100 * children)
    {
      if !(hasTitle && k == 0) {
        assert ChildPosition(hasTitle, k - off) == k;
      }
    }
  }
}

=== FILE: text.dfy ===
/** Character classes, filtering, whitespace trimming, substring search and
    decimal digit strings: the string machinery the metric animator and the
    contact rows of app.js rely on (regular-expression `replace` and
    `String.prototype.includes`). */
module Text {

  /** An ASCII decimal digit: the class `\d` of a JavaScript regular expression. */
  predicate IsDigit(c: char) {
    '0' <= c <= '9'
  }

  /** A character that belongs to a metric's magnitude: the class `[\d.]`. */
  predicate IsMagnitudeChar(c: char) {
    IsDigit(c) || c == '.'
  }

  /** Every other character: the class `[^\d.]`. */
  predicate IsOtherChar(c: char) {
    !IsMagnitudeChar(c)
  }

  /** The JavaScript `\s` class: the ECMAScript WhiteSpace and LineTerminator
      code points (tab, line feed, vertical tab, form feed, carriage return,
      space, no-break space, the Unicode space separators, line and paragraph
      separator, and the byte-order mark). */
  predicate IsSpace(c: char) {
    var k := c as int;
    || (0x09 <= k <= 0x0D)
    || k == 0x20 || k == 0xA0 || k == 0x1680
    || (0x2000 <= k <= 0x200A)
    || k == 0x2028 || k == 0x2029 || k == 0x202F || k == 0x205F
    || k == 0x3000 || k == 0xFEFF
  }

  predicate AllSatisfy(s: string, p: char -> bool) {
    forall i :: 0 <= i < |s| ==> p(s[i])
  }

  /** The characters of `s` that satisfy `keep`, in their original order:
      `s.replace(/[^class]/g, '')` for the class `keep`. */
  function Filter(s: string, keep: char -> bool): (r: string)
    ensures |r| <= |s|
    ensures AllSatisfy(r, keep)
  {
    if |s| == 0 then []
    else
      var rest := Filter(s[1..], keep);
      assert s == [s[0]] + s[1..];
      if keep(s[0]) then [s[0]] + rest else rest
  }

  /** Filtering keeps every occurrence of a kept character and none of the
      others. */
  lemma {:induction false} FilterCounts(s: string, keep: char -> bool)
    ensures forall c :: multiset(Filter(s, keep))[c] == if keep(c) then multiset(s)[c] else 0
    decreases |s|
  {
    if |s| > 0 {
      FilterCounts(s[1..], keep);
      assert s == [s[0]] + s[1..];
    }
  }

  /** `s` is a merge of `a` and `b` that keeps the relative order of each. */
  ghost predicate Interleaving(s: string, a: string, b: string)
    decreases |s|
  {
    if |s| == 0 then a == [] && b == []
    else
      || (|a| > 0 && a[0] == s[0] && Interleaving(s[1..], a[1..], b))
      || (|b| > 0 && b[0] == s[0] && Interleaving(s[1..], a, b[1..]))
  }

  /** Filtering with a class and with its complement splits a string into two
      order-preserving parts that together make up the whole string. */
  lemma {:induction false} FilterSplits(s: string, keep: char -> bool, drop: char -> bool)
    requires forall c :: drop(c) <==> !keep(c)
    ensures Interleaving(s, Filter(s, keep), Filter(s, drop))
    decreases |s|
  {
    if |s| > 0 {
      FilterSplits(s[1..], keep, drop);
    }
  }

  /** The split is unique: any order-preserving split of `s` into a part made
      of `keep` characters and a part made of `drop` characters is the pair
      of filters. */
  lemma {:induction false} FilterSplitUnique(s: string, a: string, b: string, keep: char -> bool, drop: char -> bool)
    requires forall c :: drop(c) <==> !keep(c)
    requires Interleaving(s, a, b)
    requires AllSatisfy(a, keep) && AllSatisfy(b, drop)
    ensures a == Filter(s, keep)
    ensures b == Filter(s, drop)
    decreases |s|
  {
    if |s| > 0 {
      if |a| > 0 && a[0] == s[0] && Interleaving(s[1..], a[1..], b) {
        FilterSplitUnique(s[1..], a[1..], b, keep, drop);
        assert a == [a[0]] + a[1..];
      } else {
        assert |b| > 0 && b[0] == s[0] && Interleaving(s[1..], a, b[1..]);
        FilterSplitUnique(s[1..], a, b[1..], keep, drop);
        assert b == [b[0]] + b[1..];
      }
    }
  }

  /** Filtering distributes over concatenation. */
  lemma {:induction false} FilterAppend(a: string, b: string, keep: char -> bool)
    ensures Filter(a + b, keep) == Filter(a, keep) + Filter(b, keep)
    decreases |a|
  {
    if |a| > 0 {
      var head := if keep(a[0]) then [a[0]] else [];
      assert (a + b)[0] == a[0];
      assert (a + b)[1..] == a[1..] + b;
      FilterAppend(a[1..], b, keep);
      assert Filter(a + b, keep) == head + Filter(a[1..] + b, keep);
      assert Filter(a, keep) == head + Filter(a[1..], keep);
    } else {
      assert a + b == b;
    }
  }

  /** Filtering keeps a string whose characters all belong to the class and
      empties one whose characters all do not. */
  lemma {:induction false} FilterAll(s: string, keep: char -> bool)
    ensures AllSatisfy(s, keep) ==> Filter(s, keep) == s
    ensures (forall i :: 0 <= i < |s| ==> !keep(s[i])) ==> Filter(s, keep) == []
    decreases |s|
  {
    if |s| > 0 {
      FilterAll(s[1..], keep);
      assert s == [s[0]] + s[1..];
    }
  }

  /** `s.replace(/^\s+/, '')`: the longest suffix of `s` reached by dropping
      leading whitespace. */
  function TrimStart(s: string): (r: string)
    ensures |r| <= |s| && r == s[|s| - |r|..]
    ensures forall i :: 0 <= i < |s| - |r| ==> IsSpace(s[i])
    ensures |r| > 0 ==> !IsSpace(r[0])
    decreases |s|
  {
    if |s| > 0 && IsSpace(s[0]) then TrimStart(s[1..]) else s
  }

  /** Trimming a run of whitespace in front of a string that does not itself
      start with whitespace gives that string. */
  lemma {:induction false} TrimStartOfSpaces(sp: string, s: string)
    requires AllSatisfy(sp, IsSpace)
    requires |s| > 0 ==> !IsSpace(s[0])
    ensures TrimStart(sp + s) == s
    decreases |sp|
  {
    if |sp| == 0 {
      assert sp + s == s;
    } else {
      assert (sp + s)[0] == sp[0];
      assert (sp + s)[1..] == sp[1..] + s;
      TrimStartOfSpaces(sp[1..], s);
    }
  }

  /** `pat` occurs in `s` starting at index `i`. */
  predicate OccursAt(s: string, pat: string, i: int) {
    0 <= i && i + |pat| <= |s| && s[i..i + |pat|] == pat
  }

  /** `s.includes(pat)`. */
  function Contains(s: string, pat: string): (b: bool)
    ensures b <==> exists i :: OccursAt(s, pat, i)
    decreases |s|
  {
    if |pat| <= |s| && s[..|pat|] == pat then
      assert OccursAt(s, pat, 0);
      true
    else if |s| == 0 then
      false
    else
      var b := Contains(s[1..], pat);
      assert forall i :: OccursAt(s[1..], pat, i) <==> OccursAt(s, pat, i + 1) by {
        forall i ensures OccursAt(s[1..], pat, i) <==> OccursAt(s, pat, i + 1) {
          if 0 <= i && i + |pat| <= |s| - 1 {
            assert s[1..][i..i + |pat|] == s[i + 1..i + 1 + |pat|];
          }
        }
      }
      assert b ==> exists i :: OccursAt(s, pat, i) by {
        if b {
          var i :| OccursAt(s[1..], pat, i);
          assert OccursAt(s, pat, i + 1);
        }
      }
      assert (exists i :: OccursAt(s, pat, i)) ==> b by {
        if exists i :: OccursAt(s, pat, i) {
          var i :| OccursAt(s, pat, i);
          assert i != 0;
          assert OccursAt(s[1..], pat, i - 1);
        }
      }
      b
  }

  /** A one-character pattern occurs exactly when the character does. */
  lemma ContainsChar(s: string, c: char)
    ensures Contains(s, [c]) <==> c in s
  {
    if c in s {
      var i :| 0 <= i < |s| && s[i] == c;
      assert OccursAt(s, [c], i);
    }
    if Contains(s, [c]) {
      var i :| OccursAt(s, [c], i);
      assert s[i..i + 1][0] == s[i];
    }
  }

  /** The numeric value of a decimal digit character. */
  function DigitValue(c: char): (d: nat)
    requires IsDigit(c)
    ensures d < 10
  {
    c as int - '0' as int
  }

  /** The decimal digit character for `d`. */
  function DigitChar(d: nat): (c: char)
    requires d < 10
    ensures IsDigit(c) && DigitValue(c) == d
  {
    ('0' as int + d) as char
  }

  function Pow10(k: nat): (p: nat)
    ensures p >= 1
  {
    if k == 0 then 1 else 10 * Pow10(k - 1)
  }

  /** The number a string of decimal digits denotes (most significant first). */
  function DigitsValue(s: string): (n: nat)
    requires AllSatisfy(s, IsDigit)
    ensures n < Pow10(|s|)
    decreases |s|
  {
    if |s| == 0 then 0
    else
      var high := DigitsValue(s[..|s| - 1]);
      var d := DigitValue(s[|s| - 1]);
      assert high + 1 <= Pow10(|s| - 1);
      assert high * 10 + 10 <= Pow10(|s| - 1) * 10;
      high * 10 + d
  }

  /** A decimal numeral without redundant leading zeros. */
  predicate IsCanonical(s: string) {
    |s| > 0 && AllSatisfy(s, IsDigit) && (s[0] == '0' ==> |s| == 1)
  }

  /** The shortest decimal numeral of `n`: what JavaScript prints for a
      non-negative integral number below 10^21. */
  function DecimalText(n: nat): (s: string)
    ensures IsCanonical(s)
    ensures DigitsValue(s) == n
    ensures s[0] == '0' <==> n == 0
    decreases n
  {
    if n < 10 then [DigitChar(n)]
    else
      var high := DecimalText(n / 10);
      var s := high + [DigitChar(n % 10)];
      assert s[..|s| - 1] == high;
      s
  }

  /** Reading a canonical numeral and printing the number gives the numeral back. */
  lemma {:induction false} DecimalTextOfValue(s: string)
    requires IsCanonical(s)
    ensures DecimalText(DigitsValue(s)) == s
    decreases |s|
  {
    if |s| > 1 {
      var p := s[..|s| - 1];
      assert p[0] == s[0];
      DecimalTextOfValue(p);
      var v := DigitsValue(p);
      var d := DigitValue(s[|s| - 1]);
      assert p[0] != '0';
      assert v != 0;
      var n := v * 10 + d;
      assert n / 10 == v && n % 10 == d;
      assert DigitChar(d) == s[|s| - 1];
      assert s == p + [s[|s| - 1]];
    }
  }
}
